=== FILE: README.md ===
# SmartSql options-driven configuration builder — Dafny model

SmartSql builds its runtime configuration (`SmartSqlConfig`) in phases. `OptionConfigBuilder`
fills in those phases from an in-memory options graph (`SmartSqlConfigOptions`) instead of
an XML file. This project models those phases as pure functions and methods over immutable
records, and proves what each phase does to the configuration accumulator.

- `wrappers.dfy` (`Wrappers`): `Option` for nullable values, `Result` for calls that may throw.
- `options.dfy` (`Options`): the declared input, meaning SQL map sources, tag builders, type
  handlers, the id generator, the database with its write endpoint and reads, and the settings.
- `config.dfy` (`Config`): the resolved records and the `Configuration` accumulator.
  `PhaseOutcome` pairs the accumulator with the exception a phase threw, if any. A phase that
  throws part-way leaves behind whatever it had already written.
- `linq.dfy` (`Linq`): `Enumerable.ToDictionary`, which throws on a repeated key.
- `topology.dfy` (`Topology`): `BuildDatabase`, the write endpoint plus the name-keyed reads.
- `type_handlers.dfy` (`TypeHandlers`): `BuildTypeHandlers` and generic-aware type resolution.
- `phases.dfy` (`Phases`): `BuildProperties`, `BuildIdGenerator`, `BuildTagBuilders`,
  `BuildSqlMaps` and `BuildSettings`.
- `commute.dfy` (`Commute`): the five function phases (`BuildProperties`, `BuildIdGenerator`,
  `BuildTagBuilders`, `BuildDatabase`, `BuildSettings`) give the same result pairwise in either
  order. The method phases `BuildTypeHandlers` and `BuildSqlMaps` are not covered.

Collaborators the builder calls but does not define are parameters:
- `resolve` is `TypeUtils.GetType`, a partial lookup from type name to type.
- `isGeneric` is `Type.IsGenericType`.
- `tryInit` is `DbProviderManager.TryInit`, the provider value after the by-reference call.
- `factory` is `IdGeneratorBuilder.Build`.
- `load` is the base builder's `BuildSqlMap`, acting on the SQL map collection.
- `importInto` is `Properties.Import`.

The base builder's `RegisterTypeHandler` and `RegisterTagBuilder` are modelled as append-only
logs of calls, in call order. The registries behind them are not part of this model.

The read replicas are built with `ToDictionary`. A repeated read name is not last-write-wins:
`ToDictionary` throws on it, so `BuildDatabase` throws and no topology is assigned.

## Model

| member | source | states |
|---|---|---|
| Linq.ToDictionary | src/SmartSql.Options/OptionConfigBuilder.cs:112 | succeeds exactly when the keys are pairwise distinct; the dictionary's keys are then exactly the elements' keys, each bound to its own element's value; otherwise the error is the key of the first element that repeats an earlier key |
| Linq.AddAllSpec | src/SmartSql.Options/OptionConfigBuilder.cs:112 | adding elements one by one to a dictionary succeeds iff no key is repeated or already present; on success the old entries are kept and every element is bound under its key; a failure names the first clashing key |
| Topology.BuildTopology | src/SmartSql.Options/OptionConfigBuilder.cs:101-119 | succeeds iff the declared read names are distinct; then the provider is `tryInit` of the declared provider, shared by the topology, the write endpoint and every read; write copies name and connection string; reads have exactly the declared names as keys, each copying name, connection string and weight unchanged (any weight accepted); failure names the first repeated read name |
| Topology.BuildDatabase | src/SmartSql.Options/OptionConfigBuilder.cs:99-120 | the phase succeeds iff read names are distinct; on success only the `Database` field changes and holds the described well-formed topology; on failure the configuration is unchanged (no `Database` assigned) |
| Topology.DescribesDeterminesTopology | src/SmartSql.Options/OptionConfigBuilder.cs:103-119 | the declaration and the initialised provider determine the topology completely: two topologies that both match them are equal |
| Topology.RebuildReplacesTopology | src/SmartSql.Options/OptionConfigBuilder.cs:103 | running the phase a second time with a valid declaration gives the same result as running only the second one; the earlier topology is replaced, not merged |
| Topology.TwoReplicaTopology | src/SmartSql.Options/OptionConfigBuilder.cs:101-119 | a write "w" and reads "r1" (weight 70) and "r2" (weight 30) give a map with exactly those two entries and those weights, with the initialised provider on all three endpoints |
| Topology.DuplicateReadNameFails | src/SmartSql.Options/OptionConfigBuilder.cs:112 | two reads with the same name make the phase throw and leave the configuration as it was, whatever their other fields |
| TypeHandlers.ResolveTypeHandler | src/SmartSql.Options/OptionConfigBuilder.cs:67-84 | succeeds iff every lookup it performs succeeds; the handler keeps the declared name and properties and has the looked-up handler type; property type and field type are each set to their lookup iff the handler type is generic and that name is non-null and non-empty, and are unset otherwise; the error is the first failing lookup in the order handler type, property type, field type |
| TypeHandlers.ResolvedFromIsFunctional | src/SmartSql.Options/OptionConfigBuilder.cs:67-84 | a declaration resolves to at most one handler record, so the declarative description of resolution fixes the result |
| TypeHandlers.NonGenericIgnoresSlotNames | src/SmartSql.Options/OptionConfigBuilder.cs:74-84 | for a non-generic handler type, property type and field type are unset whatever names were supplied; replacing those names, even with ones that would not resolve, changes nothing |
| TypeHandlers.GenericSlotsIndependent | src/SmartSql.Options/OptionConfigBuilder.cs:76-83 | the property type depends only on the property-type name and the field type depends only on the field-type name |
| TypeHandlers.BuildTypeHandlers | src/SmartSql.Options/OptionConfigBuilder.cs:63-87 | handlers are registered one per declaration, in declaration order, each the resolution of its declaration; if resolution throws at declaration k, the phase aborts with that error and exactly the first k handlers registered; it completes iff every declaration is resolvable; nothing but the registration log changes |
| Phases.BuildProperties | src/SmartSql.Options/OptionConfigBuilder.cs:89-92 | the property store becomes the import of the declared properties into the existing store; nothing else changes |
| Phases.BuildIdGenerator | src/SmartSql.Options/OptionConfigBuilder.cs:94-98 | with no declared generator the configuration is unchanged; otherwise the generator becomes the factory's result for the declared type name and properties, and a factory failure is thrown with the configuration unchanged |
| Phases.BuildTagBuilders | src/SmartSql.Options/OptionConfigBuilder.cs:55-61 | one registration per declared tag builder, carrying its name and type name, in declaration order, after the earlier registrations; nothing else changes |
| Phases.LoadAllSnoc | src/SmartSql.Options/OptionConfigBuilder.cs:39-52 | loading one more source continues from the state the earlier sources left, or keeps their failure |
| Phases.BuildSqlMaps | src/SmartSql.Options/OptionConfigBuilder.cs:37-53 | the loader is invoked with (resource type, path) once per source, in declaration order; on success every source was loaded in turn; on failure the calls end at the failing source, the maps loaded before it are kept, and that loader error is thrown; nothing but the SQL maps changes |
| Phases.BuildSettings | src/SmartSql.Options/OptionConfigBuilder.cs:131-134 | the settings are the declared settings, copied verbatim; nothing else changes |
| Commute.SettingsCommuteWithDatabase | src/SmartSql.Options/OptionConfigBuilder.cs:99-134 | copying the settings and building the topology give the same configuration in either order, and the topology phase throws the same error either way |
| Commute.IdGeneratorCommutesWithDatabase | src/SmartSql.Options/OptionConfigBuilder.cs:94-120 | building the id generator and building the topology give the same configuration in either order, whether either phase throws or not, and each phase throws the same error in either order |
| Commute.PropertiesCommute | src/SmartSql.Options/OptionConfigBuilder.cs:89-120 | importing the properties commutes with building the id generator (same configuration, same error), with copying the settings, and with building the topology (same configuration, same error) |
| Commute.IdGeneratorCommutesWithSettings | src/SmartSql.Options/OptionConfigBuilder.cs:94-134 | building the id generator and copying the settings give the same configuration in either order, and the id-generator phase throws the same error either way |
| Commute.TagBuildersCommute | src/SmartSql.Options/OptionConfigBuilder.cs:55-134 | the tag-builder registrations commute with copying the settings, building the topology, importing the properties and building the id generator (same configuration, same error) |
| Commute.SameRegistrations | src/SmartSql.Options/OptionConfigBuilder.cs:55-61 | the tag-builder registrations appended depend only on the earlier registration log, not on any other field of the configuration |

## Left out

- Logging and the logger factory (constructor, `OnBeforeBuild`, `OnAfterBuild`, the debug lines of `BuildSqlMaps`): diagnostics only.
- Phase order and the before/after hooks: they live in `AbstractConfigBuilder`, which is not part of this model.
- The registry policy of `RegisterTypeHandler` and `RegisterTagBuilder`, such as overwrite versus reject for a repeated name: both are in the base builder, which is not part of this model, so registrations are only logged.
- The internals of `TypeUtils.GetType`, `IsGenericType`, `DbProviderManager.TryInit`, `IdGeneratorBuilder.Build`, `BuildSqlMap` and `Properties.Import`: they are external or base-class code, modelled as arbitrary function parameters.
- `TryInit`'s boolean return value and any registration it makes in the provider manager: the builder ignores the return value, and the manager's state is outside this model.
- Topology.BuildDatabase and Topology.BuildTopology: `tryInit` is assumed to return and never throw, and the declared `Database.DbProvider` to be non-null. So "succeeds iff the read names are distinct" holds only when `TryInit` returns. A `TryInit` that threw, for an unknown or misconfigured provider, would abort the phase before the reads are built, ahead of any duplicate-name error, with no topology assigned.
- Null option objects: a null `Database`, `Write`, `Reads`, `TypeHandlers`, `SmartSqlMaps` or `TagBuilders` collection, or a null read name, makes `OptionConfigBuilder` throw a null-reference or argument exception. The model's inputs are never null. Only the nullable property-type and field-type names are modelled, as `Option<string>`.
- Phases.BuildTagBuilders: never fails in the model. Whether `RegisterTagBuilder` resolves the type name and throws happens in the base builder, which is not part of this model.
- TypeHandlers.BuildTypeHandlers: registering a resolved handler never fails in the model. `RegisterTypeHandler` is in the base builder, which is not part of this model, and may throw there, for example on a repeated name. So "completes iff every declaration is resolvable" holds only for a registration that does not throw.
- Phases.BuildSqlMaps: `BuildSqlMap` is assumed to write only the configuration's SQL maps. The loader is typed that way, so "nothing but the SQL maps changes" rests on that assumption. The real `BuildSqlMap` is in the base builder.
- Topology.RebuildReplacesTopology: `tryInit` is assumed to return the same provider for the same declared provider on every call. The real `DbProviderManager.Instance` is a process-wide singleton whose state may change between calls.
- Phases.BuildSqlMaps: a loader call that fails is treated as having no effect on the SQL maps. Any partial effect inside the failing `BuildSqlMap` call cannot be seen from this code.
- `GetExpString` (never called) and the empty `Dispose`: they have no behaviour to model.
- Thread-safety or immutability of the finished configuration: a concurrency concern that this code does not show.

=== FILE: commute.dfy ===
/** The five phases modelled as functions (`BuildProperties`,
    `BuildIdGenerator`, `BuildTagBuilders`, `BuildDatabase`, `BuildSettings`)
    each write a different field of the configuration. Every pair of them,
    run in either order, leaves the same configuration and throws the same
    errors. The method phases `BuildTypeHandlers` and `BuildSqlMaps` are not
    covered here. */
module Commute {
  import opened Wrappers
  import opened Options
  import opened Config
  import Topology
  import Phases

  /** Copying the settings commutes with building the topology, whether or
      not the topology phase throws. */
  lemma SettingsCommuteWithDatabase(cfg: Configuration, settings: Settings, decl: DatabaseOption, tryInit: DbProvider -> DbProvider)
    ensures Phases.BuildSettings(Topology.BuildDatabase(cfg, decl, tryInit).config, settings)
         == Topology.BuildDatabase(Phases.BuildSettings(cfg, settings), decl, tryInit).config
    ensures Topology.BuildDatabase(Phases.BuildSettings(cfg, settings), decl, tryInit).error
         == Topology.BuildDatabase(cfg, decl, tryInit).error
  {
  }

  /** Building the id generator commutes with building the topology, on
      success and on failure of either phase. */
  lemma IdGeneratorCommutesWithDatabase(cfg: Configuration, gen: Option<IdGeneratorOption>, factory: (string, Properties) -> Result<IdGenerator, BuildError>,
                                        decl: DatabaseOption, tryInit: DbProvider -> DbProvider)
    ensures Phases.BuildIdGenerator(Topology.BuildDatabase(cfg, decl, tryInit).config, gen, factory).config
         == Topology.BuildDatabase(Phases.BuildIdGenerator(cfg, gen, factory).config, decl, tryInit).config
    ensures Phases.BuildIdGenerator(Topology.BuildDatabase(cfg, decl, tryInit).config, gen, factory).error
         == Phases.BuildIdGenerator(cfg, gen, factory).error
    ensures Topology.BuildDatabase(Phases.BuildIdGenerator(cfg, gen, factory).config, decl, tryInit).error
         == Topology.BuildDatabase(cfg, decl, tryInit).error
  {
  }

  /** Importing the properties commutes with building the id generator, with
      copying the settings and with building the topology. */
  lemma PropertiesCommute(cfg: Configuration, declared: Properties, importInto: (Properties, Properties) -> Properties,
                          gen: Option<IdGeneratorOption>, factory: (string, Properties) -> Result<IdGenerator, BuildError>, settings: Settings,
                          decl: DatabaseOption, tryInit: DbProvider -> DbProvider)
    ensures Phases.BuildIdGenerator(Phases.BuildProperties(cfg, declared, importInto), gen, factory)
         == Phases.BuildIdGenerator(cfg, gen, factory).(config := Phases.BuildProperties(Phases.BuildIdGenerator(cfg, gen, factory).config, declared, importInto))
    ensures Phases.BuildSettings(Phases.BuildProperties(cfg, declared, importInto), settings)
         == Phases.BuildProperties(Phases.BuildSettings(cfg, settings), declared, importInto)
    ensures Topology.BuildDatabase(Phases.BuildProperties(cfg, declared, importInto), decl, tryInit)
         == Topology.BuildDatabase(cfg, decl, tryInit).(config := Phases.BuildProperties(Topology.BuildDatabase(cfg, decl, tryInit).config, declared, importInto))
  {
  }

  /** Building the id generator commutes with copying the settings, on
      success and on failure. */
  lemma IdGeneratorCommutesWithSettings(cfg: Configuration, gen: Option<IdGeneratorOption>, factory: (string, Properties) -> Result<IdGenerator, BuildError>,
                                        settings: Settings)
    ensures Phases.BuildIdGenerator(Phases.BuildSettings(cfg, settings), gen, factory)
         == Phases.BuildIdGenerator(cfg, gen, factory).(config := Phases.BuildSettings(Phases.BuildIdGenerator(cfg, gen, factory).config, settings))
  {
  }

  /** The tag-builder registrations commute with copying the settings, with
      building the topology, with importing the properties and with building
      the id generator: the log they append is the same either way. */
  lemma {:induction false} TagBuildersCommute(cfg: Configuration, tags: seq<TagBuilderOption>, settings: Settings,
                                              decl: DatabaseOption, tryInit: DbProvider -> DbProvider,
                                              declared: Properties, importInto: (Properties, Properties) -> Properties,
                                              gen: Option<IdGeneratorOption>, factory: (string, Properties) -> Result<IdGenerator, BuildError>)
    ensures Phases.BuildTagBuilders(Phases.BuildSettings(cfg, settings), tags)
         == Phases.BuildSettings(Phases.BuildTagBuilders(cfg, tags), settings)
    ensures Phases.BuildTagBuilders(Topology.BuildDatabase(cfg, decl, tryInit).config, tags)
         == Topology.BuildDatabase(Phases.BuildTagBuilders(cfg, tags), decl, tryInit).config
    ensures Phases.BuildTagBuilders(Phases.BuildProperties(cfg, declared, importInto), tags)
         == Phases.BuildProperties(Phases.BuildTagBuilders(cfg, tags), declared, importInto)
    ensures Phases.BuildTagBuilders(Phases.BuildIdGenerator(cfg, gen, factory).config, tags)
         == Phases.BuildIdGenerator(Phases.BuildTagBuilders(cfg, tags), gen, factory).config
    ensures Phases.BuildIdGenerator(Phases.BuildTagBuilders(cfg, tags), gen, factory).error
         == Phases.BuildIdGenerator(cfg, gen, factory).error
  {
    SameRegistrations(cfg, Phases.BuildSettings(cfg, settings), tags);
    SameRegistrations(cfg, Topology.BuildDatabase(cfg, decl, tryInit).config, tags);
    SameRegistrations(cfg, Phases.BuildProperties(cfg, declared, importInto), tags);
    SameRegistrations(cfg, Phases.BuildIdGenerator(cfg, gen, factory).config, tags);
  }

  /** The registrations appended depend only on the earlier log, not on any
      other field. */
  lemma {:induction false} SameRegistrations(c1: Configuration, c2: Configuration, tags: seq<TagBuilderOption>)
    requires c1.tagBuilderLog == c2.tagBuilderLog
    ensures Phases.BuildTagBuilders(c1, tags).tagBuilderLog == Phases.BuildTagBuilders(c2, tags).tagBuilderLog
  {
    var l1, l2 := Phases.BuildTagBuilders(c1, tags).tagBuilderLog, Phases.BuildTagBuilders(c2, tags).tagBuilderLog;
    var n := |c1.tagBuilderLog|;
    forall k | 0 <= k < |l1| ensures l1[k] == l2[k] {
      if k < n {
        assert l1[k] == l1[..n][k] && l2[k] == l2[..n][k];
      } else {
        var t := tags[k - n];
        assert l1[n + (k - n)] == TagBuilderRegistration(t.name, t.typeName) == l2[n + (k - n)];
      }
    }
  }
}

=== FILE: config.dfy ===
/** The configuration accumulator the builder phases write into, and the
    resolved records it holds. */
module Config {
  import opened Wrappers
  import opened Options

  /** A runtime type as returned by type-name resolution. */
  datatype TypeDesc = TypeDesc(fullName: string)

  /** A resolved type handler. `propertyType` and `fieldType` are only ever
      set for generic handler types. */
  datatype TypeHandler = TypeHandler(
    name: string,
    handlerType: TypeDesc,
    propertyType: Option<TypeDesc>,
    fieldType: Option<TypeDesc>,
    properties: Properties)

  /** One call of the base builder's tag-builder registration. */
  datatype TagBuilderRegistration = TagBuilderRegistration(name: string, typeName: string)

  /** Opaque handle to an id-generator instance built by the generator factory. */
  datatype IdGenerator = IdGenerator(instance: nat)

  /** Opaque handle to a loaded SQL map. */
  datatype SqlMap = SqlMap(scope: string)

  datatype WriteDataSource = WriteDataSource(name: string, dbProvider: DbProvider, connectionString: string)

  datatype ReadDataSource = ReadDataSource(name: string, connectionString: string, dbProvider: DbProvider, weight: int)

  /** The database topology: one write endpoint and read replicas keyed by name
      (`SmartSql.DataSource.Database.Reads`). */
  datatype Database = Database(dbProvider: DbProvider, write: WriteDataSource, replicas: map<string, ReadDataSource>)

  /** Why a phase aborted. Only `DuplicateReadName` is raised by the model
      itself, by the dictionary construction of the read replicas. The other
      constructors only name the kinds of error the collaborators report
      (type lookup, generator factory, SQL map loader); the collaborators may
      return any `BuildError`, and the builder propagates it unchanged. */
  datatype BuildError =
    | TypeNotFound(typeName: string)
    | DuplicateReadName(name: string)
    | IdGeneratorFailed(typeName: string)
    | SqlMapLoadFailed(path: string)

  /** The configuration being built. Registrations made through the base
      builder are kept as logs of calls, in call order, because the policy of
      the registries behind them is not part of this model. */
  datatype Configuration = Configuration(
    properties: Properties,
    sqlMaps: map<string, SqlMap>,
    tagBuilderLog: seq<TagBuilderRegistration>,
    typeHandlerLog: seq<TypeHandler>,
    idGenerator: Option<IdGenerator>,
    database: Option<Database>,
    settings: Settings)

  /** The state of the accumulator after a phase, and the error the phase
      threw, if any. A throwing phase leaves behind whatever it had already
      written. */
  datatype PhaseOutcome = PhaseOutcome(config: Configuration, error: Option<BuildError>)
}

=== FILE: linq.dfy ===
/** LINQ's `Enumerable.ToDictionary`, as the builder uses it for the read
    replicas: elements are added in order, and adding a key that is already
    present throws instead of overwriting. */
module Linq {
  import opened Wrappers

  /** No two elements of `xs` share a key. */
  ghost predicate DistinctKeys<T, K>(xs: seq<T>, key: T -> K) {
    forall i, j :: 0 <= i < j < |xs| ==> key(xs[i]) != key(xs[j])
  }

  /** Every element of `xs` can be added to `acc` without a key clash. */
  ghost predicate Addable<T, K, V>(acc: map<K, V>, xs: seq<T>, key: T -> K) {
    && DistinctKeys(xs, key)
    && forall i :: 0 <= i < |xs| ==> key(xs[i]) !in acc
  }

  /** The keys of the elements of `xs`. */
  ghost function KeysOf<T, K>(xs: seq<T>, key: T -> K): set<K> {
    set i | 0 <= i < |xs| :: key(xs[i])
  }

  /** `j` is the index at which adding `xs` to `acc` first meets a key that is
      already present. */
  ghost predicate FirstClash<T, K, V>(acc: map<K, V>, xs: seq<T>, key: T -> K, j: int) {
    && 0 <= j < |xs|
    && Addable(acc, xs[..j], key)
    && !Addable(acc, xs[..j + 1], key)
  }

  /** Adds the elements of `xs` to `acc` one by one; fails with the first key
      that is already present. */
  function AddAll<T, K, V>(acc: map<K, V>, xs: seq<T>, key: T -> K, value: T -> V): Result<map<K, V>, K>
    decreases |xs|
  {
    if |xs| == 0 then Success(acc)
    else if key(xs[0]) in acc then Failure(key(xs[0]))
    else AddAll(acc[key(xs[0]) := value(xs[0])], xs[1..], key, value)
  }

  lemma AddableCons<T, K, V>(acc: map<K, V>, x: T, ys: seq<T>, key: T -> K, v: V)
    requires key(x) !in acc
    ensures Addable(acc, [x] + ys, key) <==> Addable(acc[key(x) := v], ys, key)
  {
    var xs := [x] + ys;
    var acc' := acc[key(x) := v];
    if Addable(acc, xs, key) {
      forall i | 0 <= i < |ys|
        ensures key(ys[i]) !in acc'
      {
        assert ys[i] == xs[i + 1] && x == xs[0];
      }
      forall i, j | 0 <= i < j < |ys|
        ensures key(ys[i]) != key(ys[j])
      {
        assert ys[i] == xs[i + 1] && ys[j] == xs[j + 1];
      }
    }
    if Addable(acc', ys, key) {
      forall i | 0 <= i < |xs|
        ensures key(xs[i]) !in acc
      {
        if i > 0 { assert xs[i] == ys[i - 1]; }
      }
      forall i, j | 0 <= i < j < |xs|
        ensures key(xs[i]) != key(xs[j])
      {
        assert xs[j] == ys[j - 1];
        if i > 0 { assert xs[i] == ys[i - 1]; }
      }
    }
  }

  /** What `AddAll` computes: it succeeds exactly when no key clashes, the
      result then extends `acc` with every element's key bound to its value,
      and a failure names the key of the first clash. */
  lemma {:induction false} AddAllSpec<T, K, V>(acc: map<K, V>, xs: seq<T>, key: T -> K, value: T -> V)
    ensures AddAll(acc, xs, key, value).Success? <==> Addable(acc, xs, key)
    ensures AddAll(acc, xs, key, value).Success? ==>
      var m := AddAll(acc, xs, key, value).value;
      && m.Keys == acc.Keys + KeysOf(xs, key)
      && (forall k :: k in acc ==> m[k] == acc[k])
      && (forall i :: 0 <= i < |xs| ==> m[key(xs[i])] == value(xs[i]))
    ensures AddAll(acc, xs, key, value).Failure? ==>
      exists j :: FirstClash(acc, xs, key, j) && AddAll(acc, xs, key, value).error == key(xs[j])
    decreases |xs|
  {
    if |xs| == 0 {
      assert KeysOf(xs, key) == {};
    } else if key(xs[0]) in acc {
      assert FirstClash(acc, xs, key, 0);
    } else {
      var x, ys := xs[0], xs[1..];
      assert xs == [x] + ys;
      var acc' := acc[key(x) := value(x)];
      AddAllSpec(acc', ys, key, value);
      AddableCons(acc, x, ys, key, value(x));
      var r := AddAll(acc, xs, key, value);
      assert r == AddAll(acc', ys, key, value);
      if r.Success? {
        var m := r.value;
        assert KeysOf(xs, key) == {key(x)} + KeysOf(ys, key) by {
          forall k | k in KeysOf(xs, key) ensures k in {key(x)} + KeysOf(ys, key) {
            var i :| 0 <= i < |xs| && key(xs[i]) == k;
            if i > 0 { assert xs[i] == ys[i - 1]; }
          }
          forall k | k in KeysOf(ys, key) ensures k in KeysOf(xs, key) {
            var i :| 0 <= i < |ys| && key(ys[i]) == k;
            assert ys[i] == xs[i + 1];
          }
        }
        forall i | 0 <= i < |xs| ensures m[key(xs[i])] == value(xs[i]) {
          if i > 0 { assert xs[i] == ys[i - 1]; }
        }
      } else {
        var j' :| FirstClash(acc', ys, key, j') && r.error == key(ys[j']);
        assert xs[..j' + 1] == [x] + ys[..j'];
        assert xs[..j' + 2] == [x] + ys[..j' + 1];
        AddableCons(acc, x, ys[..j'], key, value(x));
        AddableCons(acc, x, ys[..j' + 1], key, value(x));
        assert FirstClash(acc, xs, key, j' + 1);
      }
    }
  }

  /** `xs.ToDictionary(key, value)`: succeeds exactly when the keys are
      distinct; the dictionary then has exactly the elements' keys, each bound
      to its element's value; otherwise it throws on the first repeated key. */
  function ToDictionary<T, K, V>(xs: seq<T>, key: T -> K, value: T -> V): (r: Result<map<K, V>, K>)
    ensures r.Success? <==> DistinctKeys(xs, key)
    ensures r.Success? ==>
      && r.value.Keys == KeysOf(xs, key)
      && forall i :: 0 <= i < |xs| ==> r.value[key(xs[i])] == value(xs[i])
    ensures r.Failure? ==>
      exists j :: 0 <= j < |xs| && DistinctKeys(xs[..j], key) && !DistinctKeys(xs[..j + 1], key) && r.error == key(xs[j])
  {
    AddAllSpec(map[], xs, key, value);
    AddAll(map[], xs, key, value)
  }
}

=== FILE: options.dfy ===
/** The declarative input of the builder: the options graph the host
    application supplies (SmartSqlConfigOptions and its parts). */
module Options {
  import opened Wrappers

  /** A free-form bag of string properties attached to a declaration. */
  type Properties = map<string, string>

  /** The kind of resource a SQL map is loaded from. The enumeration's members
      are not part of this model, so a kind is represented by its name. */
  type ResourceType = string

  /** A database provider as declared; `TryInit` may normalise it. Only its
      name and its remaining settings are modelled. */
  datatype DbProvider = DbProvider(name: string, settings: Properties)

  datatype SqlMapSource = SqlMapSource(resourceType: ResourceType, path: string)

  datatype TagBuilderOption = TagBuilderOption(name: string, typeName: string)

  /** A declared type handler. The property-type and field-type names are
      nullable strings (`TypeHandler.PropertyType`, `TypeHandler.FieldType`
      of the options), hence `Option<string>`. */
  datatype TypeHandlerOption = TypeHandlerOption(
    name: string,
    typeName: string,
    propertyType: Option<string>,
    fieldType: Option<string>,
    properties: Properties)

  datatype IdGeneratorOption = IdGeneratorOption(typeName: string, properties: Properties)

  datatype WriteOption = WriteOption(name: string, connectionString: string)

  /** A declared read replica. The weight is not validated by the builder,
      so any integer is accepted here. */
  datatype ReadOption = ReadOption(name: string, connectionString: string, weight: int)

  /** `replicas` is `SmartSqlConfigOptions.Database.Reads`. */
  datatype DatabaseOption = DatabaseOption(dbProvider: DbProvider, write: WriteOption, replicas: seq<ReadOption>)

  /** Pass-through settings record; its fields are not interpreted by the builder. */
  datatype Settings = Settings(values: Properties)

  datatype ConfigOptions = ConfigOptions(
    settings: Settings,
    properties: Properties,
    smartSqlMaps: seq<SqlMapSource>,
    tagBuilders: seq<TagBuilderOption>,
    typeHandlers: seq<TypeHandlerOption>,
    idGenerator: Option<IdGeneratorOption>,
    database: DatabaseOption)
}

=== FILE: phases.dfy ===
/** The smaller phases of the options-driven builder: properties, id
    generator, tag builders, SQL maps and settings. */
module Phases {
  import opened Wrappers
  import opened Options
  import opened Config

  /** The `BuildProperties` phase: the declared properties are imported into
      the configuration's property store by `importInto`, whose merge policy is
      not part of this model. No other field changes. */
  function BuildProperties(cfg: Configuration, declared: Properties, importInto: (Properties, Properties) -> Properties): (r: Configuration)
    ensures r.properties == importInto(cfg.properties, declared)
    ensures r == cfg.(properties := r.properties)
  {
    cfg.(properties := importInto(cfg.properties, declared))
  }

  /** The `BuildIdGenerator` phase: a no-op when no generator is declared;
      otherwise the generator factory is applied to the declared type name and
      properties and its result becomes the configuration's generator. A
      factory failure is thrown with the configuration untouched. */
  function BuildIdGenerator(cfg: Configuration, decl: Option<IdGeneratorOption>, factory: (string, Properties) -> Result<IdGenerator, BuildError>): (out: PhaseOutcome)
    ensures decl.None? ==> out == PhaseOutcome(cfg, None)
    ensures decl.Some? ==>
      var built := factory(decl.value.typeName, decl.value.properties);
      && (out.error.None? <==> built.Success?)
      && (built.Success? ==> out.config == cfg.(idGenerator := Some(built.value)))
      && (built.Failure? ==> out.config == cfg && out.error == Some(built.error))
  {
    match decl
    case None => PhaseOutcome(cfg, None)
    case Some(g) =>
      match factory(g.typeName, g.properties)
      case Success(generator) => PhaseOutcome(cfg.(idGenerator := Some(generator)), None)
      case Failure(e) => PhaseOutcome(cfg, Some(e))
  }

  /** The `BuildTagBuilders` phase: one registration call per declared tag
      builder, with its name and type name, in declaration order. */
  function BuildTagBuilders(cfg: Configuration, decls: seq<TagBuilderOption>): (r: Configuration)
    ensures r == cfg.(tagBuilderLog := r.tagBuilderLog)
    ensures |r.tagBuilderLog| == |cfg.tagBuilderLog| + |decls|
    ensures r.tagBuilderLog[..|cfg.tagBuilderLog|] == cfg.tagBuilderLog
    ensures forall i :: 0 <= i < |decls| ==>
      r.tagBuilderLog[|cfg.tagBuilderLog| + i] == TagBuilderRegistration(decls[i].name, decls[i].typeName)
    decreases |decls|
  {
    if |decls| == 0 then cfg
    else
      var registered := cfg.(tagBuilderLog := cfg.tagBuilderLog + [TagBuilderRegistration(decls[0].name, decls[0].typeName)]);
      BuildTagBuilders(registered, decls[1..])
  }

  /** The SQL maps after loading `sources` in order starting from `maps`,
      stopping at the first loader failure. This is the reference the
      `BuildSqlMaps` loop is checked against. */
  function LoadAll(load: (map<string, SqlMap>, ResourceType, string) -> Result<map<string, SqlMap>, BuildError>,
                   maps: map<string, SqlMap>, sources: seq<SqlMapSource>): Result<map<string, SqlMap>, BuildError>
    decreases |sources|
  {
    if |sources| == 0 then Success(maps)
    else
      match load(maps, sources[0].resourceType, sources[0].path)
      case Failure(e) => Failure(e)
      case Success(next) => LoadAll(load, next, sources[1..])
  }

  /** Loading one more source continues from where loading the prefix ended. */
  lemma {:induction false} LoadAllSnoc(load: (map<string, SqlMap>, ResourceType, string) -> Result<map<string, SqlMap>, BuildError>,
                                       maps: map<string, SqlMap>, sources: seq<SqlMapSource>, last: SqlMapSource)
    ensures LoadAll(load, maps, sources + [last]) ==
      match LoadAll(load, maps, sources)
      case Failure(e) => Failure(e)
      case Success(m) => load(m, last.resourceType, last.path)
    decreases |sources|
  {
    if |sources| == 0 {
      assert sources + [last] == [last];
    } else {
      assert (sources + [last])[1..] == sources[1..] + [last];
      match load(maps, sources[0].resourceType, sources[0].path)
      case Failure(e) =>
      case Success(next) => LoadAllSnoc(load, next, sources[1..], last);
    }
  }

  /** The `BuildSqlMaps` phase. The loader is invoked once per declared
      source, with its resource type and path, in declaration order; `calls`
      records those invocations. A loader failure aborts the phase after the
      failing call, keeping the maps loaded before it. No other field
      changes. */
  method BuildSqlMaps(cfg: Configuration, sources: seq<SqlMapSource>,
                      load: (map<string, SqlMap>, ResourceType, string) -> Result<map<string, SqlMap>, BuildError>)
    returns (out: PhaseOutcome, calls: seq<SqlMapSource>)
    ensures out.config == cfg.(sqlMaps := out.config.sqlMaps)
    ensures |calls| <= |sources| && calls == sources[..|calls|]
    ensures out.error.None? ==> calls == sources && LoadAll(load, cfg.sqlMaps, sources) == Success(out.config.sqlMaps)
    ensures out.error.Some? ==>
      && |calls| > 0
      && LoadAll(load, cfg.sqlMaps, sources) == Failure(out.error.value)
      && LoadAll(load, cfg.sqlMaps, calls[..|calls| - 1]) == Success(out.config.sqlMaps)
      && load(out.config.sqlMaps, calls[|calls| - 1].resourceType, calls[|calls| - 1].path) == Failure(out.error.value)
  {
    var maps := cfg.sqlMaps;
    calls := [];
    var i := 0;
    while i < |sources|
      invariant 0 <= i <= |sources|
      invariant calls == sources[..i]
      invariant LoadAll(load, cfg.sqlMaps, sources[..i]) == Success(maps)
      invariant LoadAll(load, cfg.sqlMaps, sources) == LoadAll(load, maps, sources[i..])
    {
      var source := sources[i];
      calls := calls + [source];
      LoadAllSnoc(load, cfg.sqlMaps, sources[..i], source);
      assert sources[..i + 1] == sources[..i] + [source];
      var loaded := load(maps, source.resourceType, source.path);
      if loaded.Failure? {
        return PhaseOutcome(cfg.(sqlMaps := maps), Some(loaded.error)), calls;
      }
      maps := loaded.value;
      i := i + 1;
    }
    out := PhaseOutcome(cfg.(sqlMaps := maps), None);
  }

  /** The `BuildSettings` phase: the declared settings are copied verbatim and
      nothing else changes. */
  function BuildSettings(cfg: Configuration, declared: Settings): (r: Configuration)
    ensures r.settings == declared
    ensures r == cfg.(settings := r.settings)
  {
    cfg.(settings := declared)
  }
}

=== FILE: topology.dfy ===
/** `BuildDatabase`: the database topology built from the declared options,
    with one provider value shared by every endpoint. */
module Topology {
  import opened Wrappers
  import opened Options
  import opened Config
  import Linq

  /** The replica entry the builder makes from a declared read. */
  function ReadEndpoint(r: ReadOption, provider: DbProvider): ReadDataSource {
    ReadDataSource(r.name, r.connectionString, provider, r.weight)
  }

  /** The key the read replicas are indexed by. */
  function ReadName(r: ReadOption): string {
    r.name
  }

  /** Read `j` is the first whose name repeats an earlier declared read. */
  ghost predicate FirstRepeatedName(rs: seq<ReadOption>, j: int) {
    && 0 <= j < |rs|
    && Linq.DistinctKeys(rs[..j], ReadName)
    && exists i :: 0 <= i < j && rs[i].name == rs[j].name
  }

  /** Every endpoint of `db` carries the topology's provider, and every replica
      is stored under its own name. */
  ghost predicate WellFormed(db: Database) {
    && db.write.dbProvider == db.dbProvider
    && forall n :: n in db.replicas ==> db.replicas[n].dbProvider == db.dbProvider && db.replicas[n].name == n
  }

  /** `db` is the topology that `decl` describes once its provider has become
      `provider`: the write endpoint copies the declared write, and the replicas
      are exactly the declared reads, keyed by name, with their connection
      strings and weights unchanged. */
  ghost predicate Describes(decl: DatabaseOption, provider: DbProvider, db: Database) {
    && db.dbProvider == provider
    && db.write == WriteDataSource(decl.write.name, provider, decl.write.connectionString)
    && db.replicas.Keys == Linq.KeysOf(decl.replicas, ReadName)
    && forall i :: 0 <= i < |decl.replicas| ==> db.replicas[decl.replicas[i].name] == ReadEndpoint(decl.replicas[i], provider)
  }

  /** The first clash reported by the dictionary construction repeats a name
      declared earlier. */
  lemma FirstClashRepeatsEarlierName(rs: seq<ReadOption>, j: int)
    requires 0 <= j < |rs|
    requires Linq.DistinctKeys(rs[..j], ReadName) && !Linq.DistinctKeys(rs[..j + 1], ReadName)
    ensures FirstRepeatedName(rs, j)
  {
  }

  lemma ReplicaMapDescribed(decl: DatabaseOption, provider: DbProvider, replicas: map<string, ReadDataSource>)
    requires replicas.Keys == Linq.KeysOf(decl.replicas, ReadName)
    requires forall i :: 0 <= i < |decl.replicas| ==> replicas[ReadName(decl.replicas[i])] == ReadEndpoint(decl.replicas[i], provider)
    ensures
      var db := Database(provider, WriteDataSource(decl.write.name, provider, decl.write.connectionString), replicas);
      WellFormed(db) && Describes(decl, provider, db)
  {
  }

  /** The topology for `decl`, `tryInit` being the provider manager's
      initialisation (applied once, to the declared provider). Fails with the
      first repeated read name, as the dictionary construction throws on it. */
  function BuildTopology(decl: DatabaseOption, tryInit: DbProvider -> DbProvider): (r: Result<Database, BuildError>)
    ensures r.Success? <==> Linq.DistinctKeys(decl.replicas, ReadName)
    ensures r.Success? ==> WellFormed(r.value) && Describes(decl, tryInit(decl.dbProvider), r.value)
    ensures r.Failure? ==>
      exists j :: FirstRepeatedName(decl.replicas, j) && r.error == DuplicateReadName(decl.replicas[j].name)
  {
    var provider := tryInit(decl.dbProvider);
    var endpoint := (r: ReadOption) => ReadEndpoint(r, provider);
    match Linq.ToDictionary(decl.replicas, ReadName, endpoint)
    case Failure(dup) =>
      ghost var j :| 0 <= j < |decl.replicas|
        && Linq.DistinctKeys(decl.replicas[..j], ReadName)
        && !Linq.DistinctKeys(decl.replicas[..j + 1], ReadName)
        && dup == ReadName(decl.replicas[j]);
      FirstClashRepeatsEarlierName(decl.replicas, j);
      Failure(DuplicateReadName(dup))
    case Success(replicas) =>
      ReplicaMapDescribed(decl, provider, replicas);
      Success(Database(provider, WriteDataSource(decl.write.name, provider, decl.write.connectionString), replicas))
  }

  /** The `BuildDatabase` phase: assigns the topology to the configuration, or
      throws before assigning anything. No other field changes. */
  function BuildDatabase(cfg: Configuration, decl: DatabaseOption, tryInit: DbProvider -> DbProvider): (out: PhaseOutcome)
    ensures out.error.None? <==> Linq.DistinctKeys(decl.replicas, ReadName)
    ensures out.error.Some? ==> out.config == cfg
    ensures out.error.None? ==>
      && out.config == cfg.(database := out.config.database)
      && out.config.database.Some?
      && WellFormed(out.config.database.value)
      && Describes(decl, tryInit(decl.dbProvider), out.config.database.value)
  {
    match BuildTopology(decl, tryInit)
    case Success(db) => PhaseOutcome(cfg.(database := Some(db)), None)
    case Failure(e) => PhaseOutcome(cfg, Some(e))
  }

  /** `Describes` pins the topology down: two topologies that both describe
      the same declaration with the same provider are equal. So the contract of
      `BuildTopology` determines its result. */
  lemma DescribesDeterminesTopology(decl: DatabaseOption, provider: DbProvider, db1: Database, db2: Database)
    requires Describes(decl, provider, db1) && Describes(decl, provider, db2)
    ensures db1 == db2
  {
  }

  /** Running the phase again replaces the topology instead of merging with it. */
  lemma RebuildReplacesTopology(cfg: Configuration, d1: DatabaseOption, d2: DatabaseOption, tryInit: DbProvider -> DbProvider)
    requires Linq.DistinctKeys(d2.replicas, ReadName)
    ensures BuildDatabase(BuildDatabase(cfg, d1, tryInit).config, d2, tryInit) == BuildDatabase(cfg, d2, tryInit)
  {
  }

  /** Two replicas weighted 70 and 30 behind a write endpoint: both replicas
      are present under their names with their weights, and all three
      endpoints carry the initialised provider. */
  lemma TwoReplicaTopology(tryInit: DbProvider -> DbProvider)
    ensures
      var mysql := DbProvider("MySql", map[]);
      var decl := DatabaseOption(mysql, WriteOption("w", "csw"), [ReadOption("r1", "cs1", 70), ReadOption("r2", "cs2", 30)]);
      var p := tryInit(mysql);
      BuildTopology(decl, tryInit)
        == Success(Database(p, WriteDataSource("w", p, "csw"),
                            map["r1" := ReadDataSource("r1", "cs1", p, 70), "r2" := ReadDataSource("r2", "cs2", p, 30)]))
  {
  }

  /** Two reads that share a name make the phase throw, whatever their
      connection strings and weights. */
  lemma DuplicateReadNameFails(cfg: Configuration, decl: DatabaseOption, tryInit: DbProvider -> DbProvider, i: int, j: int)
    requires 0 <= i < j < |decl.replicas| && decl.replicas[i].name == decl.replicas[j].name
    ensures BuildDatabase(cfg, decl, tryInit) == PhaseOutcome(cfg, BuildDatabase(cfg, decl, tryInit).error)
    ensures BuildDatabase(cfg, decl, tryInit).error.Some?
  {
  }
}

=== FILE: type_handlers.dfy ===
/** `BuildTypeHandlers`: each declared handler is resolved against the type
    lookup and registered with the base builder, in declaration order. */
module TypeHandlers {
  import opened Wrappers
  import opened Options
  import opened Config

  /** `String.IsNullOrEmpty` on a nullable string. */
  predicate IsNullOrEmpty(s: Option<string>) {
    s.None? || s.value == ""
  }

  /** `t` is what a secondary type slot (property type or field type) holds:
      the lookup of `name` when the handler type is generic and `name` is
      non-empty, and nothing otherwise. */
  ghost predicate SlotFrom(resolve: string -> Result<TypeDesc, BuildError>, generic: bool, name: Option<string>, t: Option<TypeDesc>) {
    if generic && !IsNullOrEmpty(name) then t.Some? && resolve(name.value) == Success(t.value)
    else t.None?
  }

  /** `h` is the handler that the declaration `d` resolves to. */
  ghost predicate ResolvedFrom(resolve: string -> Result<TypeDesc, BuildError>, isGeneric: TypeDesc -> bool, d: TypeHandlerOption, h: TypeHandler) {
    && h.name == d.name
    && h.properties == d.properties
    && resolve(d.typeName) == Success(h.handlerType)
    && SlotFrom(resolve, isGeneric(h.handlerType), d.propertyType, h.propertyType)
    && SlotFrom(resolve, isGeneric(h.handlerType), d.fieldType, h.fieldType)
  }

  /** Every lookup that resolving `d` performs succeeds. */
  ghost predicate Resolvable(resolve: string -> Result<TypeDesc, BuildError>, isGeneric: TypeDesc -> bool, d: TypeHandlerOption) {
    && resolve(d.typeName).Success?
    && (isGeneric(resolve(d.typeName).value) ==>
          && (IsNullOrEmpty(d.propertyType) || resolve(d.propertyType.value).Success?)
          && (IsNullOrEmpty(d.fieldType) || resolve(d.fieldType.value).Success?))
  }

  /** Resolves a secondary type name, leaving the slot unset for a null or
      empty name. */
  function ResolveSlot(resolve: string -> Result<TypeDesc, BuildError>, name: Option<string>): Result<Option<TypeDesc>, BuildError> {
    if IsNullOrEmpty(name) then Success(None)
    else
      var t :- resolve(name.value);
      Success(Some(t))
  }

  /** Builds the handler record for one declaration. Lookups happen in the
      order `BuildTypeHandlers` performs them (handler type, then property
      type, then field type) and the first
      that fails is the error thrown. */
  function ResolveTypeHandler(resolve: string -> Result<TypeDesc, BuildError>, isGeneric: TypeDesc -> bool, d: TypeHandlerOption): (r: Result<TypeHandler, BuildError>)
    ensures r.Success? <==> Resolvable(resolve, isGeneric, d)
    ensures r.Success? ==> ResolvedFrom(resolve, isGeneric, d, r.value)
    ensures resolve(d.typeName).Failure? ==> r == Failure(resolve(d.typeName).error)
    ensures r.Failure? && resolve(d.typeName).Success? ==>
      var generic := isGeneric(resolve(d.typeName).value);
      && generic
      && if !IsNullOrEmpty(d.propertyType) && resolve(d.propertyType.value).Failure?
         then r.error == resolve(d.propertyType.value).error
         else !IsNullOrEmpty(d.fieldType) && r.error == resolve(d.fieldType.value).error
  {
    var handlerType :- resolve(d.typeName);
    if isGeneric(handlerType) then
      var propertyType :- ResolveSlot(resolve, d.propertyType);
      var fieldType :- ResolveSlot(resolve, d.fieldType);
      Success(TypeHandler(d.name, handlerType, propertyType, fieldType, d.properties))
    else
      Success(TypeHandler(d.name, handlerType, None, None, d.properties))
  }

  /** `ResolvedFrom` is functional: a declaration resolves to at most one
      handler, so the contract of `ResolveTypeHandler` determines its result. */
  lemma ResolvedFromIsFunctional(resolve: string -> Result<TypeDesc, BuildError>, isGeneric: TypeDesc -> bool, d: TypeHandlerOption, h1: TypeHandler, h2: TypeHandler)
    requires ResolvedFrom(resolve, isGeneric, d, h1) && ResolvedFrom(resolve, isGeneric, d, h2)
    ensures h1 == h2
  {
  }

  /** A non-generic handler type ignores the property-type and field-type
      names: whatever they are, the slots stay unset and the lookups are never
      made, so a name that would not resolve cannot fail the build. */
  lemma NonGenericIgnoresSlotNames(resolve: string -> Result<TypeDesc, BuildError>, isGeneric: TypeDesc -> bool, d: TypeHandlerOption, propertyType: Option<string>, fieldType: Option<string>)
    requires resolve(d.typeName).Success? && !isGeneric(resolve(d.typeName).value)
    ensures ResolveTypeHandler(resolve, isGeneric, d)
         == ResolveTypeHandler(resolve, isGeneric, d.(propertyType := propertyType, fieldType := fieldType))
    ensures ResolveTypeHandler(resolve, isGeneric, d).Success?
    ensures ResolveTypeHandler(resolve, isGeneric, d).value.propertyType.None?
    ensures ResolveTypeHandler(resolve, isGeneric, d).value.fieldType.None?
  {
  }

  /** For a generic handler type the two slots are resolved independently:
      changing the field-type name does not change the property type, and the
      other way round. */
  lemma GenericSlotsIndependent(resolve: string -> Result<TypeDesc, BuildError>, isGeneric: TypeDesc -> bool, d: TypeHandlerOption, d': TypeHandlerOption)
    requires d'.name == d.name && d'.typeName == d.typeName && d'.properties == d.properties
    requires ResolveTypeHandler(resolve, isGeneric, d).Success? && ResolveTypeHandler(resolve, isGeneric, d').Success?
    ensures d'.propertyType == d.propertyType ==>
      ResolveTypeHandler(resolve, isGeneric, d').value.propertyType == ResolveTypeHandler(resolve, isGeneric, d).value.propertyType
    ensures d'.fieldType == d.fieldType ==>
      ResolveTypeHandler(resolve, isGeneric, d').value.fieldType == ResolveTypeHandler(resolve, isGeneric, d).value.fieldType
  {
  }

  /** The `BuildTypeHandlers` phase. Handlers are registered one per
      declaration, in order, by appending to the registration log; the first
      declaration whose resolution throws aborts the phase with exactly the
      declarations before it registered. No other field changes. */
  method BuildTypeHandlers(cfg: Configuration, decls: seq<TypeHandlerOption>, resolve: string -> Result<TypeDesc, BuildError>, isGeneric: TypeDesc -> bool)
    returns (out: PhaseOutcome)
    ensures out.config == cfg.(typeHandlerLog := out.config.typeHandlerLog)
    ensures
      var before, log := cfg.typeHandlerLog, out.config.typeHandlerLog;
      var k := |log| - |before|;
      && |before| <= |log| <= |before| + |decls|
      && log[..|before|] == before
      && (forall j :: 0 <= j < k ==> ResolveTypeHandler(resolve, isGeneric, decls[j]) == Success(log[|before| + j]))
      && (out.error.None? <==> k == |decls|)
      && (out.error.Some? ==> ResolveTypeHandler(resolve, isGeneric, decls[k]) == Failure(out.error.value))
    ensures out.error.None? <==> forall j :: 0 <= j < |decls| ==> Resolvable(resolve, isGeneric, decls[j])
  {
    var log := cfg.typeHandlerLog;
    var i := 0;
    while i < |decls|
      invariant 0 <= i <= |decls|
      invariant |log| == |cfg.typeHandlerLog| + i
      invariant log[..|cfg.typeHandlerLog|] == cfg.typeHandlerLog
      invariant forall j :: 0 <= j < i ==> ResolveTypeHandler(resolve, isGeneric, decls[j]) == Success(log[|cfg.typeHandlerLog| + j])
    {
      var handler := ResolveTypeHandler(resolve, isGeneric, decls[i]);
      if handler.Failure? {
        return PhaseOutcome(cfg.(typeHandlerLog := log), Some(handler.error));
      }
      log := log + [handler.value];
      i := i + 1;
    }
    out := PhaseOutcome(cfg.(typeHandlerLog := log), None);
  }
}

=== FILE: wrappers.dfy ===
/** Failure-compatible wrappers used throughout the model.
    - Option<T> stands for a C# reference or string that may be null.
    - Result<R, E> stands for a call that either returns a value or throws. */
module Wrappers {

  datatype Option<+T> = None | Some(value: T)

  datatype Result<+R, +E> = Success(value: R) | Failure(error: E) {

    /** A thrown exception is the failure case that `:-` propagates. */
    predicate IsFailure() {
      Failure?
    }

    /** The same error, carried by a result of another value type. */
    function PropagateFailure<U>(): Result<U, E>
      requires Failure?
    {
      Failure(error)
    }

    /** The value a call returned when it did not throw. */
    function Extract(): R
      requires Success?
    {
      value
    }
  }
}
